=== FILE: README.md ===
# Database backup restore — a Dafny model

The package restores a database from the newest backup in an S3 bucket.
It lists the backups under a configured prefix and picks the newest by
last-modified time. It downloads that backup and dispatches on its MIME type
(gzip or zip). It decompresses the backup to `tmp/backup.sql`, submits the
SQL to the database, and deletes the scratch files.

The same routine exists twice:

- `Importer::handle` throws on every error.
- `ImportDb::handle` is the registered `dbimporter:import` console command. It
  only prints an error for an empty listing or an unknown MIME type, and keeps
  going.

This project models the decision logic between the I/O calls of both copies:

- the local disk is `map<path, Node>`;
- S3, zlib, libzip and the database are parameters;
- every stage returns either the next disk state or the error that stops the
  run.

Modules:

- `Base`: bytes, the error kinds, `Result`.
- `FileStore`: the local disk and the few operations the source performs on it
  (`put`, `File::delete`, `File::deleteDirectory`, `unlink`,
  `file_get_contents`).
- `Selection`: latest-backup selection. The listing is folded into an array
  keyed by timestamp, sorted by key in descending order (`krsort`), and
  element `[0]` is taken. Also an independent reference definition of "the
  latest entry" (`IsLatestIndex`).
- `Format`: MIME dispatch and the scratch file name
  `backup_` + 10 random characters + extension.
- `Workspace`: the fixed paths, PHP truthiness of `zip_full_path`, and the
  payload path.
- `Extract`: the 4096-byte gzip copy loop as a method with loop invariants,
  gzip and zip extraction, and the zip-open guard.
- `Restore`: `_importBackup` and `_cleanUp`.
- `Pipeline`: `Importer::handle` and `ImportDb::handle`. Each returns a
  `Report`: the disk, the stages that returned, the downloaded name, the
  submitted payload, the printed errors, and the outcome.
- `RestoreProperties`: lemmas that span several stages.

Paths are relative to the `local` disk root, so `storage_path('app/tmp/')` is
`tmp/`. This holds with the `local` disk root that Laravel ships up to
version 10, `storage/app`.

Five behaviours of the code differ from what a restore tool is usually
expected to do; the model follows the code:

- **Tie-break.** The first-seen backup is not the one chosen. Later array
  assignment overwrites earlier, so the name listed **last** among those with
  the newest timestamp wins (`Selection.TieGoesToLastListed`).
- **Cleanup on failure.** Cleanup is not guaranteed. Neither copy has a
  try/finally, so any exception skips cleanup and leaves the scratch files on
  disk (`RestoreProperties.ImporterFailureSkipsCleanup`).
- **Empty listing in `ImportDb`.** `ImportDb` does not abort on an empty
  listing. It prints "No backups found" and goes on to `[0]` of an empty
  array, which has no element.
- **Unknown MIME type in `ImportDb`.** `ImportDb` does not abort on an unknown
  MIME type either. It imports whatever an earlier run left at the payload
  path (`RestoreProperties.ImportDbUnsupportedContinues`).
- **Leftover scratch file before a zip run.** A failed gzip run can leave a
  file at `tmp/backup.sql`. `extractTo` does not replace it, so a later zip
  backup with entries stops at the first entry
  (`RestoreProperties.ZipOverFileStops`), and an empty archive imports that
  stale file (`RestoreProperties.EmptyZipOverFileImportsStale`).

Some PHP calls only raise a warning: `file_get_contents` and `unlink` on a
missing path, `fopen` on a directory, `extractTo` writing an entry under a
file, and `[0]` on an empty array. Laravel's error handler turns those
warnings into exceptions, so the model treats each of them as stopping the
run.

## Model

| member | source | states |
|---|---|---|
| `Selection.CollectSpec` | src/Importer.php:66-70 | the array built from the listing has exactly the listed timestamps as keys, and each key holds the name listed last with that timestamp |
| `Selection.KeysDescending` | src/Importer.php:101-106 | `krsort` order: only keys of the array, every key present, strictly descending |
| `Selection.GetLatest` | src/Importer.php:88-93 | `[0]` after the sort has no element exactly when the array is empty; otherwise it is the value under the largest timestamp |
| `Selection.SelectIsLatestIndex` | src/Importer.php:66-72 | whenever an entry has a maximal timestamp and no later entry shares it, its name is the one selected |
| `Selection.LatestIndexExists` | src/Console/ImportDb.php:84-90 | every non-empty listing has such a latest entry |
| `Selection.LatestIndexUnique` | src/Console/ImportDb.php:119-124 | the latest entry is unique, so selection is deterministic |
| `Selection.SelectSpec` | src/Console/ImportDb.php:84-110 | empty listing gives no element; otherwise the selected name is a listed name whose timestamp is at least every listed timestamp, listed last among its equals |
| `Selection.TieGoesToLastListed` | src/Console/ImportDb.php:85-88 | of two backups with the same newest timestamp, the one listed second is selected |
| `Format.ClassifyExact` | src/Importer.php:120-131 | only the exact strings `application/x-gzip` and `application/zip` are supported, each naming exactly one format; everything else takes the default arm |
| `Format.ScratchName` | src/Importer.php:118-128 | the scratch name starts with `backup_` and is 17 characters plus the format's extension (`.gz`, `.zip`, or none for the default arm) |
| `Format.ScratchNameRoundTrip` | src/Console/ImportDb.php:134-146 | the scratch name gives back both the random suffix and the format |
| `Format.ScratchNameInjective` | src/Console/ImportDb.php:134 | different suffixes or formats never give the same scratch name |
| `Workspace.ScratchApartFromDest` | src/Importer.php:145-152 | the downloaded file `tmp/backup_…` is never `tmp/backup.sql` nor inside it |
| `Workspace.PayloadPath` | src/Importer.php:187-193 | with a truthy `zip_full_path` the payload lies inside `tmp/backup.sql` at exactly that sub-path; otherwise it is `tmp/backup.sql` itself |
| `Workspace.PayloadPathChoice` | src/Console/ImportDb.php:207-211 | the payload is `tmp/backup.sql` exactly when `zip_full_path` is null, `""` or `"0"` |
| `Extract.ChunksFromSpec` | src/Importer.php:153-155 | the reads `gzread` returns until `gzeof` are 4096 bytes each except the last, which is shorter, and together they are the rest of the stream |
| `Extract.CopyStream` | src/Importer.php:152-157 | the chunked copy writes exactly the chunks `Chunks(stream)`, hence the whole stream; every chunk but the last is 4096 bytes and the last is shorter, the read that set end-of-file |
| `Extract.ExtractGzip` | src/Console/ImportDb.php:161-176 | the download is stored at the scratch path; a failed `gzopen` stops with it left there, and so does a `tmp/backup.sql` that is a directory (`fopen` fails); otherwise `tmp/backup.sql` holds the chunks the copy loop writes, which make up the full stream; no other path changes |
| `Extract.ZipGuardAdmitsFailedOpen` | src/Importer.php:174-176 | as written, every documented error code from `ZipArchive::open` passes the guard |
| `Extract.ExtractTo` | src/Importer.php:175 | when `tmp/backup.sql` is not a file, extraction makes it a directory holding every archive entry at its relative path touching nothing outside it |
| `Extract.ExtractToHasEntryNode` | src/Importer.php:175 | every node extraction creates, including the directory for each parent of a nested entry, is on disk afterwards |
| `Extract.ParentIsDirectory` | src/Importer.php:175 | the parent of a nested entry, when it is not itself an entry, is extracted as a directory |
| `Extract.ExtractedParentIsDirectory` | src/Importer.php:174-175 | after a zip that opened is extracted over a disk with no file at `tmp/backup.sql`, the parent `dir` of an entry `dir/rest` that is not itself an entry is a directory on disk |
| `Extract.ExtractZip` | src/Console/ImportDb.php:186-196 | the download is stored at the scratch path; with the corrected guard (see Findings) entries are extracted only from an archive whose `open` returned `true`; an archive that did not open stops the run (the throw from `extractTo` or `close`) with the download left on disk and nothing else written; over a file at `tmp/backup.sql` an archive with entries stops the run with `DestIsFile` and the same disk, and one without entries writes nothing but the download |
| `Restore.ImportBackup` | src/Importer.php:185-194 | the disk is unchanged; the batch submitted is exactly the file at the payload path; a missing or directory payload, or a rejected batch, stops the run |
| `Restore.CleanUp` | src/Importer.php:201-209 | `tmp/backup.sql` is gone (with its contents when it was a directory); cleanup succeeds exactly when the scratch file existed, and then it is gone; nothing else changes |
| `Restore.CleanUpAfterExtraction` | src/Console/ImportDb.php:221-230 | after an extraction, cleanup removes exactly the scratch file, `tmp/backup.sql` and its contents |
| `Pipeline.ExtractFor` | src/Importer.php:120-128 | a supported type leaves the download on disk under its extension and touches only the workspace |
| `Pipeline.ImportAndCleanUp` | src/Importer.php:46-48 | cleanup runs only after the import returned, and the run is done exactly when both returned |
| `Pipeline.ImporterHandle` | src/Importer.php:40-64 | stages run in order and stop at the first exception; done exactly when all four returned; an empty listing throws with nothing downloaded or written; only workspace paths change |
| `Pipeline.WithFinished` | src/Console/ImportDb.php:62-66 | "Finished" is reported only after cleanup returned |
| `Pipeline.ImportDbAfterDownload` | src/Console/ImportDb.php:132-151 | an unknown type never stops the command; the stages still run in order |
| `Pipeline.ImportDbHandle` | src/Console/ImportDb.php:54-90 | an empty listing prints "No backups found", then fails for want of an element with nothing written; the type check never stops the run; only workspace paths change |
| `RestoreProperties.FetchedMeansListed` | src/Importer.php:72-76 | what is downloaded is the latest listed name, with its own MIME type and content |
| `RestoreProperties.ImporterDownloadsLatest` | src/Importer.php:66-76 | for a non-empty listing `Importer` downloads the latest name |
| `RestoreProperties.ImporterRejectsUnsupported` | src/Importer.php:116-131 | an unknown MIME type throws right after the download with the local disk untouched |
| `RestoreProperties.ImportKeepsWrittenScratch` | src/Importer.php:46-48 | once the scratch file is on disk, a failed import leaves it there and a cleanup that runs succeeds |
| `RestoreProperties.ImporterFailureSkipsCleanup` | src/Importer.php:40-49 | a failed run has not cleaned up, and after the scratch file stage it leaves the download on disk; the unlink itself never fails |
| `RestoreProperties.ImporterDoneLeavesNoScratch` | src/Importer.php:201-209 | from any disk where nothing lies inside `tmp/backup.sql` unless it is a directory (the state a failed zip run leaves included), a completed run leaves neither the download nor `tmp/backup.sql` nor anything inside it |
| `RestoreProperties.DoneCleansWorkspace` | src/Importer.php:185-209 | once the download is on disk, an import and cleanup that both return leave neither the download nor `tmp/backup.sql` nor anything inside it |
| `RestoreProperties.GzipRestoreSubmitsStream` | src/Importer.php:143-158 | a gzip backup that opens, with no directory at `tmp/backup.sql`, has its whole decompressed stream submitted, and the run completes |
| `RestoreProperties.GzipOpenFailureStops` | src/Importer.php:147-151 | a gzip stream that does not open throws with only the download written |
| `RestoreProperties.GzipOverDirectoryStops` | src/Importer.php:152 | a gzip backup over a `tmp/backup.sql` directory left by an earlier zip run throws at `fopen`, with only the download written and the old extraction untouched |
| `RestoreProperties.ZipRestoreSubmitsEntry` | src/Importer.php:168-190 | a zip backup with `zip_full_path` naming an entry, with no file at `tmp/backup.sql`, has exactly that entry submitted |
| `RestoreProperties.ZipWithoutSubPathFails` | src/Importer.php:187-192 | without `zip_full_path` a zip backup over a disk with no file at `tmp/backup.sql` fails: its payload path is the extraction directory |
| `RestoreProperties.ZipOpenFailureStops` | src/Importer.php:168-178 | an archive that does not open stops `Importer` right after the download: only the download is written, nothing is extracted, imported or cleaned up |
| `RestoreProperties.ZipOverFileStops` | src/Importer.php:168-177 | a zip backup with entries over a file at `tmp/backup.sql` (left by a failed gzip run) stops `Importer` right after the download with `DestIsFile`: only the download is written, nothing is imported or cleaned up |
| `RestoreProperties.EmptyZipOverFileImportsStale` | src/Importer.php:174-193 | an empty archive over a file at `tmp/backup.sql` leaves that file in place, and `Importer` without `zip_full_path` submits its stale content and completes |
| `RestoreProperties.ExtractionKeepsDestTree` | src/Importer.php:143-177 | a gzip or zip extraction that returns keeps "nothing inside `tmp/backup.sql` unless it is a directory" |
| `RestoreProperties.ImportOfDirectoryFails` | src/Importer.php:185-193 | a directory at the payload path stops the import before cleanup, with the disk unchanged |
| `RestoreProperties.ZipSubPathNamingDirectoryFails` | src/Importer.php:189-190 | with no file at `tmp/backup.sql`, a `zip_full_path` that names a directory of the archive (the parent of a nested entry) fails the import |
| `RestoreProperties.VariantsAgreeOnSupportedTypes` | src/Console/ImportDb.php:54-67 | on a gzip or zip backup, `ImportDb` ends exactly as `Importer` does, plus "Finished" after a completed run |
| `RestoreProperties.ImportDbUnsupportedContinues` | src/Console/ImportDb.php:134-150 | an unknown type prints the error and writes nothing: every path on disk afterwards was there before with the same content; the command imports whatever was already at the payload path; past the import it then fails at the unlink of the never-written scratch name, after `tmp/backup.sql` is gone |

The gzip copy loop is identical in both files
(src/Console/ImportDb.php:170-175). `Chunks(stream)` is what its reads
return; `ExtractGzip` writes their concatenation to `tmp/backup.sql`,
`ChunksFromSpec` proves that concatenation is the whole stream, and
`CopyStream` proves the loop writes exactly those chunks.

## Findings

| source | as written | input that shows it | evidently intended | confidence | as-written member | corrected member |
|---|---|---|---|---|---|---|
| src/Importer.php:174 (same at src/Console/ImportDb.php:192) | `if ($zip->open($filePathFull))` treats any truthy return as success | a download that is not a zip archive: `open` returns the error code 19 (ER_NOZIP), which is truthy, so `extractTo` runs on an archive that never opened and throws | extract only when `open` returns `true`; `close()` still throws on an archive that did not open, so either way nothing is extracted and the run stops with the download on disk | high (open returns `true`, `false` or a non-zero error code per its documentation); not executed | `Extract.ZipGuardAdmitsFailedOpen` | `Extract.ExtractZip` |

## Left out

- S3 (`files`, `lastModified`, `mimeType`, `get`) is the `Remote` parameter. The `s3.prefix` setting is folded into the listing it selects. A `get` that returns null and a `mimeType` that returns false are not modelled.
- `Str::random(10)` is the `suffix` parameter. Collisions between concurrent runs are not modelled.
- zlib and libzip decompression are given as data. The model has the decompressed stream, or the archive's open status and entries. A `gzread` failure in the middle of the stream is not modelled.
- An archive that did not open stops the run with `ZipNotOpened`, standing for the exception `extractTo` (as written) or `close` (with the corrected guard) throws on it. The ignored return value of `extractTo` on an archive that did open is not modelled.
- Extract.ExtractTo: requires that `tmp/backup.sql` is not a file; that case is modelled in `Extract.ExtractZip`, which stops at the first entry. An entry whose name is also the parent of another entry is modelled as a file; the archive's own directory entries and unsafe entry names are not modelled.
- A `local` disk whose root is not `storage/app` (Laravel 11 and later ship `storage/app/private`) is not modelled. There, `put('tmp/…')` and `storage_path('app/tmp/')` name different files, so every run would fail at `gzopen` or `open`.
- `DB::unprepared` is the `execute` parameter: it either accepts the payload or throws. What the SQL does to the database is not modelled.
- The console output (`line`, `info`, `error`, `newLine`, emoji) appears only as the two printed errors (`Notice`) and the `Finished` stage.
- The service provider (src/DbImporterServiceProvider.php) is not modelled. It only merges and publishes config and registers the command.
- Selection, the pipeline and the properties are ghost definitions. Choosing the largest key of a map uses a such-that choice.

=== FILE: base.dfy ===
/** Shared vocabulary of the restore model: bytes, the error kinds a run can
    stop with, and a small Result type for stages that may fail. */
module Base {

  /** One octet of a downloaded or decompressed file. */
  newtype Byte = b: int | 0 <= b < 256

  type Bytes = seq<Byte>

  datatype Option<+T> = None | Some(value: T)

  /** Why a restore run stopped. Every constructor is an exception in the
      PHP source, or a PHP warning that the framework's error handler turns
      into one. */
  datatype Error =
    | NoBackups           // Importer: the remote listing is empty
    | NoElement           // `[0]` of an empty timestamp array
    | ForbiddenType       // Importer: MIME type is neither gzip nor zip
    | GzipOpenFailed      // gzopen returned false
    | DestIsDirectory     // fopen(.., 'wb') on a path that is a directory
    | ZipNotOpened        // extractTo or close on an archive that did not open
    | DestIsFile          // extractTo writing an entry under a path that is a file
    | PayloadMissing      // file_get_contents on a path that does not exist
    | PayloadIsDirectory  // file_get_contents on a directory
    | QueryFailed         // DB::unprepared threw
    | UnlinkFailed        // unlink of a scratch file that is not a file

  datatype Result<+T> = Ok(value: T) | Err(error: Error)
}

=== FILE: extract.dfy ===
/** `_extractGzip` and `_extractZip`: write the download to its scratch
    file, then decompress it to `Dest`. Decompression itself (zlib,
    libzip) is not modelled; its result is given as data. */
module Extract {
  import opened Base
  import opened FileStore
  import opened Format
  import opened Workspace

  /** Bytes requested per `gzread` call. */
  const ChunkSize: nat := 4096

  /** The decompressed stream behind `gzopen`, or the failure to open it. */
  datatype GzOpen = GzOpenFailed | GzOpened(stream: Bytes)

  /** What `ZipArchive::open` returns: `true`, `false`, or a libzip error
      code. */
  datatype OpenStatus = OpenTrue | OpenFalse | OpenError(code: int)

  /** The archive as libzip sees it: the open status, and the files
      `extractTo` writes (paths relative to the target directory). */
  datatype ZipArchive = ZipArchive(status: OpenStatus, entries: map<string, Bytes>)

  /** Error codes `ZipArchive::open` documents: ER_SEEK, ER_READ, ER_NOENT,
      ER_EXISTS, ER_OPEN, ER_MEMORY, ER_INVAL, ER_NOZIP, ER_INCONS. */
  const ZipOpenErrorCodes: set<int> := {4, 5, 9, 10, 11, 14, 18, 19, 21}

  /** ER_NOZIP: the file is not a zip archive. */
  const ErNoZip: int := 19

  /** Concatenation of the chunks written, in order. */
  function Concat(chunks: seq<Bytes>): Bytes
  {
    if |chunks| == 0 then [] else Concat(chunks[..|chunks|-1]) + chunks[|chunks|-1]
  }

  /** Writing a chunk ahead of others writes its bytes first. */
  lemma {:induction false} ConcatPrepend(c: Bytes, cs: seq<Bytes>)
    ensures Concat([c] + cs) == c + Concat(cs)
    decreases |cs|
  {
    if |cs| > 0 {
      var cs' := cs[..|cs|-1];
      assert ([c] + cs)[..|cs|] == [c] + cs';
      ConcatPrepend(c, cs');
    } else {
      assert [c] + cs == [c];
      assert [c][..0] == [];
    }
  }

  /** The chunks the copy loop writes once `pos` bytes are consumed: each
      `gzread` returns up to 4096 bytes, and the first short read sets the
      end-of-file flag, as in zlib. A stream whose length is a multiple of
      4096 (the empty stream included) therefore ends with one empty read. */
  function ChunksFrom(stream: Bytes, pos: nat): (chunks: seq<Bytes>)
    requires pos <= |stream|
    ensures |chunks| > 0
    decreases |stream| - pos
  {
    var n := if |stream| - pos < ChunkSize then |stream| - pos else ChunkSize;
    if n < ChunkSize then [stream[pos..pos + n]]
    else [stream[pos..pos + n]] + ChunksFrom(stream, pos + n)
  }

  /** Every chunk but the last is 4096 bytes, the last is shorter, and
      together they are the rest of the stream. */
  lemma {:induction false} ChunksFromSpec(stream: Bytes, pos: nat)
    requires pos <= |stream|
    ensures Concat(ChunksFrom(stream, pos)) == stream[pos..]
    ensures forall k :: 0 <= k < |ChunksFrom(stream, pos)| - 1 ==> |ChunksFrom(stream, pos)[k]| == ChunkSize
    ensures |ChunksFrom(stream, pos)[|ChunksFrom(stream, pos)| - 1]| < ChunkSize
    decreases |stream| - pos
  {
    var n := if |stream| - pos < ChunkSize then |stream| - pos else ChunkSize;
    var c := stream[pos..pos + n];
    if n < ChunkSize {
      assert ChunksFrom(stream, pos) == [c];
      ConcatPrepend(c, []);
    } else {
      var rest := ChunksFrom(stream, pos + n);
      ChunksFromSpec(stream, pos + n);
      ConcatPrepend(c, rest);
      assert stream[pos..] == c + stream[pos + n..];
      assert ChunksFrom(stream, pos) == [c] + rest;
      forall k | 0 <= k < |[c] + rest| - 1 ensures |([c] + rest)[k]| == ChunkSize {
        if k > 0 { assert ([c] + rest)[k] == rest[k - 1]; }
      }
    }
  }

  /** The chunks of the whole stream. */
  function Chunks(stream: Bytes): seq<Bytes>
  {
    ChunksFrom(stream, 0)
  }

  /** One step of the copy loop: the next read is the chunk at `pos`, and
      the chunks still to come after it are those from `pos + n`, or none
      once the read came back short. */
  lemma ChunksFromStep(chunks: seq<Bytes>, stream: Bytes, pos: nat, n: nat)
    requires pos <= |stream|
    requires n == if |stream| - pos < ChunkSize then |stream| - pos else ChunkSize
    ensures n < ChunkSize ==> chunks + ChunksFrom(stream, pos) == chunks + [stream[pos..pos + n]]
    ensures n == ChunkSize ==>
              chunks + ChunksFrom(stream, pos) == (chunks + [stream[pos..pos + n]]) + ChunksFrom(stream, pos + n)
  {
    if n == ChunkSize {
      var c := stream[pos..pos + n];
      assert chunks + ([c] + ChunksFrom(stream, pos + n)) == (chunks + [c]) + ChunksFrom(stream, pos + n);
    }
  }

  /** The copy loop of `_extractGzip`: `gzread` up to 4096 bytes and write
      them until `gzeof`. It writes exactly `Chunks(stream)`, so the
      destination ends equal to the full stream. */
  method CopyStream(stream: Bytes) returns (written: Bytes, chunks: seq<Bytes>)
    ensures written == stream
    ensures chunks == Chunks(stream)
    ensures Concat(chunks) == written
    ensures |chunks| > 0
    ensures forall k :: 0 <= k < |chunks| - 1 ==> |chunks[k]| == ChunkSize
    ensures |chunks[|chunks| - 1]| < ChunkSize
  {
    written := [];
    chunks := [];
    var pos := 0;
    var eof := false;
    while !eof
      invariant 0 <= pos <= |stream|
      invariant written == stream[..pos]
      invariant !eof ==> chunks + ChunksFrom(stream, pos) == Chunks(stream)
      invariant eof ==> chunks == Chunks(stream) && pos == |stream|
      decreases |stream| - pos, if eof then 0 else 1
    {
      var n := if |stream| - pos < ChunkSize then |stream| - pos else ChunkSize;
      var chunk := stream[pos..pos + n];
      ChunksFromStep(chunks, stream, pos, n);
      eof := n < ChunkSize;
      chunks := chunks + [chunk];
      written := written + chunk;
      assert stream[..pos + n] == stream[..pos] + chunk;
      pos := pos + n;
    }
    ChunksFromSpec(stream, 0);
  }

  /** `_extractGzip`: the download is put at `scratch`; if `gzopen` fails an
      `UnexpectedValueException` leaves that file behind; if `Dest` is a
      directory (left by an earlier zip run) `fopen(.., 'wb')` fails and
      stops the run the same way; otherwise the chunks the copy loop
      writes (`CopyStream`) make up the file `Dest`, which then holds the
      whole stream. */
  function ExtractGzip(s: Store, scratch: Path, content: Bytes, gz: GzOpen): (r: Step<()>)
    requires scratch != Dest
    ensures scratch in r.store && r.store[scratch] == File(content)
    ensures r.Halt? <==> gz.GzOpenFailed? || IsDir(s, Dest)
    ensures r.Halt? ==> r.store == Put(s, scratch, content)
    ensures gz.GzOpenFailed? ==> r.error == GzipOpenFailed
    ensures gz.GzOpened? && IsDir(s, Dest) ==> r.error == DestIsDirectory
    ensures r.Next? ==> Dest in r.store && r.store[Dest] == File(gz.stream)
    ensures forall q :: q in s && q != scratch && q != Dest ==> q in r.store && r.store[q] == s[q]
    ensures r.store.Keys <= s.Keys + {scratch, Dest}
  {
    var s1 := Put(s, scratch, content);
    match gz
    case GzOpenFailed => Halt(s1, GzipOpenFailed)
    case GzOpened(stream) =>
      if IsDir(s1, Dest) then Halt(s1, DestIsDirectory)
      else
        ChunksFromSpec(stream, 0);
        Next(Put(s1, Dest, Concat(Chunks(stream))), ())
  }

  /** PHP truthiness of what `ZipArchive::open` returned. */
  predicate OpenTruthy(o: OpenStatus) {
    match o
    case OpenTrue => true
    case OpenFalse => false
    case OpenError(code) => code != 0
  }

  /** The guard as written, `if ($zip->open(...))`. */
  predicate ZipGuardAsWritten(o: OpenStatus) {
    OpenTruthy(o)
  }

  /** Every documented failure of `ZipArchive::open` passes the guard as
      written, so a download that is not a zip archive still reaches
      `extractTo`. */
  lemma ZipGuardAdmitsFailedOpen()
    ensures forall c :: c in ZipOpenErrorCodes ==> ZipGuardAsWritten(OpenError(c)) && !OpenError(c).OpenTrue?
    ensures ZipGuardAsWritten(OpenError(ErNoZip))
  {
  }

  /** The guard as evidently intended, `=== true`: only an archive that
      opened reaches `extractTo`. */
  predicate ZipOpened(o: OpenStatus) {
    o == OpenTrue
  }

  /** Where `extractTo(Dest)` puts an archive entry. */
  function EntryPath(e: string): (p: Path)
    ensures Under(p, Dest) && p != Dest
    ensures p[|Dest| + 1..] == e
  {
    Dest + "/" + e
  }

  /** The directories `extractTo` creates for nested entries: every proper
      prefix of an entry name that ends just before a slash. */
  function ParentDirs(entries: map<string, Bytes>): (ds: set<string>)
    ensures forall e, i :: e in entries && 0 < i < |e| && e[i] == '/' ==> e[..i] in ds
  {
    set e, i | e in entries && 0 < i < |e| && e[i] == '/' :: e[..i]
  }

  /** What `extractTo` creates, by path relative to `Dest`: a directory
      for every parent path, then each entry's file (a file wins over a
      directory of the same name). */
  function RelativeNodes(entries: map<string, Bytes>): (m: map<string, Node>)
    ensures forall e :: e in entries ==> e in m && m[e] == File(entries[e])
    ensures forall d :: d in ParentDirs(entries) && d !in entries ==> d in m && m[d] == Dir
  {
    (map d | d in ParentDirs(entries) :: Dir) + (map e | e in entries :: File(entries[e]))
  }

  /** The nodes `extractTo` creates inside `Dest`. */
  function EntryNodes(entries: map<string, Bytes>): (m: map<Path, Node>)
    ensures forall q :: q in m ==> Under(q, Dest) && q != Dest
    ensures forall n :: n in RelativeNodes(entries) ==> EntryPath(n) in m && m[EntryPath(n)] == RelativeNodes(entries)[n]
    ensures forall e :: e in entries ==> EntryPath(e) in m && m[EntryPath(e)] == File(entries[e])
  {
    var rel := RelativeNodes(entries);
    map n | n in rel :: EntryPath(n) := rel[n]
  }

  /** A nested entry's parent, when it is not itself an entry, is a
      directory inside `Dest`. */
  lemma ParentIsDirectory(entries: map<string, Bytes>, e: string, i: nat)
    requires e in entries && 0 < i < |e| && e[i] == '/'
    requires e[..i] !in entries
    ensures EntryPath(e[..i]) in EntryNodes(entries) && EntryNodes(entries)[EntryPath(e[..i])] == Dir
  {
    var d := e[..i];
    assert d in ParentDirs(entries);
  }

  /** `extractTo(Dest)`: the directory `Dest`, the parent directories of
      nested entries, and every entry file under it. */
  function ExtractTo(s: Store, entries: map<string, Bytes>): (r: Store)
    requires !IsFile(s, Dest)
    ensures IsDir(r, Dest)
    ensures forall e :: e in entries ==> EntryPath(e) in r && r[EntryPath(e)] == File(entries[e])
    ensures forall q :: q in s && q != Dest && !Under(q, Dest) ==> q in r && r[q] == s[q]
    ensures forall q :: q in r && q !in s ==> q == Dest || Under(q, Dest)
  {
    var m := EntryNodes(entries);
    assert Dest !in m;
    (s + m)[Dest := Dir]
  }

  /** Every node `extractTo` creates inside `Dest`, parent directories
      included, is on disk afterwards. */
  lemma ExtractToHasEntryNode(s: Store, entries: map<string, Bytes>, n: string)
    requires !IsFile(s, Dest) && n in RelativeNodes(entries)
    ensures EntryPath(n) in ExtractTo(s, entries) && ExtractTo(s, entries)[EntryPath(n)] == RelativeNodes(entries)[n]
  {
  }

  /** `_extractZip`. The download is put at `scratch`, and the archive is
      extracted into `Dest` only when `open` returned `true` (the intended
      guard, see `ZipGuardAsWritten`). An archive that did not open stops
      the run with the download left on disk: as written, a non-zero error
      code passes the guard and `extractTo` throws on the unopened archive;
      with `false`, or with the intended guard, the unconditional `close()`
      throws instead. When `Dest` is a file (left by an earlier gzip run),
      `extractTo` keeps it, and its first entry, which lies under that
      file, cannot be opened for writing: the run stops there too. An
      archive without entries then writes nothing at all. */
  function ExtractZip(s: Store, scratch: Path, content: Bytes, zip: ZipArchive): (r: Step<()>)
    requires scratch != Dest && !Under(scratch, Dest)
    ensures scratch in r.store && r.store[scratch] == File(content)
    ensures r.Halt? <==> !ZipOpened(zip.status) || (IsFile(s, Dest) && |zip.entries| > 0)
    ensures r.Halt? ==> r.store == Put(s, scratch, content)
    ensures !ZipOpened(zip.status) ==> r.error == ZipNotOpened
    ensures ZipOpened(zip.status) && IsFile(s, Dest) && |zip.entries| > 0 ==> r.error == DestIsFile
    ensures r.Next? && IsFile(s, Dest) ==> r.store == Put(s, scratch, content)
    ensures r.Next? && !IsFile(s, Dest) ==> IsDir(r.store, Dest)
    ensures r.Next? ==>
              forall e :: e in zip.entries ==> EntryPath(e) in r.store && r.store[EntryPath(e)] == File(zip.entries[e])
    ensures forall q :: q in s && q != scratch && q != Dest && !Under(q, Dest) ==> q in r.store && r.store[q] == s[q]
    ensures forall q :: q in r.store && q !in s ==> q == scratch || q == Dest || Under(q, Dest)
  {
    var s1 := Put(s, scratch, content);
    if !ZipOpened(zip.status) then Halt(s1, ZipNotOpened)
    else if IsFile(s1, Dest) then
      if |zip.entries| > 0 then Halt(s1, DestIsFile) else Next(s1, ())
    else Next(ExtractTo(s1, zip.entries), ())
  }

  /** An archive that opened, with no file in the way, is extracted. */
  lemma OpenedZipExtracts(s: Store, scratch: Path, content: Bytes, zip: ZipArchive)
    requires scratch != Dest && !Under(scratch, Dest)
    requires ZipOpened(zip.status) && !IsFile(s, Dest)
    ensures !IsFile(Put(s, scratch, content), Dest)
    ensures ExtractZip(s, scratch, content, zip) == Next(ExtractTo(Put(s, scratch, content), zip.entries), ())
  {
  }

  /** The parent `dir` of an entry `dir/rest` is a parent directory of the
      archive, and a directory node when it is not itself an entry. */
  lemma PrefixIsParent(entries: map<string, Bytes>, dir: string, rest: string)
    requires dir != [] && dir + "/" + rest in entries && dir !in entries
    ensures dir in RelativeNodes(entries) && RelativeNodes(entries)[dir] == Dir
  {
    var e := dir + "/" + rest;
    assert e[..|dir|] == dir;
    assert dir in ParentDirs(entries);
  }

  /** A directory of the archive (the parent of an entry `dir/rest`, not
      itself an entry) is a directory on disk once the archive is
      extracted. */
  lemma ExtractedParentIsDirectory(s: Store, scratch: Path, content: Bytes, zip: ZipArchive, dir: string, rest: string)
    requires scratch != Dest && !Under(scratch, Dest)
    requires ZipOpened(zip.status) && !IsFile(s, Dest)
    requires dir != [] && dir + "/" + rest in zip.entries && dir !in zip.entries
    ensures ExtractZip(s, scratch, content, zip).Next?
    ensures IsDir(ExtractZip(s, scratch, content, zip).store, EntryPath(dir))
  {
    OpenedZipExtracts(s, scratch, content, zip);
    PrefixIsParent(zip.entries, dir, rest);
    ExtractToHasEntryNode(Put(s, scratch, content), zip.entries, dir);
  }
}

=== FILE: file_store.dfy ===
/** The local disk as a map from paths (relative to the application's
    storage root) to nodes. A directory's contents are the paths that
    start with the directory's path and a slash. */
module FileStore {
  import opened Base

  type Path = string

  datatype Node = File(content: Bytes) | Dir

  type Store = map<Path, Node>

  /** Outcome of a stage that touches the store: it either continues with a
      new store and a value, or stops with an error, leaving the store as it
      was at the moment of the exception (nothing is rolled back). */
  datatype Step<+T> = Next(store: Store, value: T) | Halt(store: Store, error: Error)

  /** `q` lies strictly inside directory `dir`. */
  predicate Under(q: Path, dir: Path) {
    dir + "/" <= q
  }

  predicate IsDir(s: Store, p: Path) {
    p in s && s[p].Dir?
  }

  predicate IsFile(s: Store, p: Path) {
    p in s && s[p].File?
  }

  /** `Storage::put` and `fopen(.., 'wb')`: create or overwrite a file. */
  function Put(s: Store, p: Path, c: Bytes): (r: Store)
    ensures r.Keys == s.Keys + {p}
    ensures r[p] == File(c)
    ensures forall q :: q in s && q != p ==> r[q] == s[q]
  {
    s[p := File(c)]
  }

  /** `File::deleteDirectory`: the directory and everything inside it. */
  function DeleteDirectory(s: Store, dir: Path): (r: Store)
    ensures dir !in r
    ensures forall q :: Under(q, dir) ==> q !in r
    ensures forall q :: q in s && q != dir && !Under(q, dir) <==> q in r
    ensures forall q :: q in r ==> r[q] == s[q]
  {
    map q | q in s && q != dir && !Under(q, dir) :: s[q]
  }

  /** `File::delete`: removes the path; a missing path is ignored quietly. */
  function DeleteFile(s: Store, p: Path): (r: Store)
    ensures r.Keys == s.Keys - {p}
    ensures forall q :: q in r ==> r[q] == s[q]
  {
    s - {p}
  }

  /** PHP `unlink`: fails unless the path is an existing file. */
  function Unlink(s: Store, p: Path): (r: Result<Store>)
    ensures r.Ok? <==> IsFile(s, p)
    ensures r.Ok? ==> r.value.Keys == s.Keys - {p}
    ensures r.Ok? ==> forall q :: q in r.value ==> r.value[q] == s[q]
    ensures r.Err? ==> r.error == UnlinkFailed
  {
    if IsFile(s, p) then Ok(s - {p}) else Err(UnlinkFailed)
  }

  /** `file_get_contents`: the content of an existing file. */
  function Read(s: Store, p: Path): (r: Result<Bytes>)
    ensures r.Ok? <==> IsFile(s, p)
    ensures r.Ok? ==> s[p] == File(r.value)
    ensures p !in s ==> r == Err(PayloadMissing)
    ensures IsDir(s, p) ==> r == Err(PayloadIsDirectory)
  {
    if p !in s then Err(PayloadMissing)
    else match s[p]
      case File(c) => Ok(c)
      case Dir => Err(PayloadIsDirectory)
  }
}

=== FILE: format.dfy ===
/** MIME-type dispatch and the scratch file name of `_createTmpZipFile`. */
module Format {
  import opened Base

  /** The archive formats the importer recognises. */
  datatype Format = Gzip | Zip | Unsupported

  const GzipMime: string := "application/x-gzip"
  const ZipMime: string := "application/zip"

  /** Fixed head of every scratch file name. */
  const ScratchPrefix: string := "backup_"

  /** `Str::random(10)` always yields ten characters. */
  const SuffixLength: nat := 10

  /** The `switch` on the reported MIME type: exact string comparison,
      everything else falls through to the default arm. */
  function Classify(mime: string): Format
  {
    if mime == GzipMime then Gzip
    else if mime == ZipMime then Zip
    else Unsupported
  }

  /** The MIME type a supported format is recognised by. */
  function MimeOf(f: Format): string
    requires f != Unsupported
  {
    if f == Gzip then GzipMime else ZipMime
  }

  /** Only the two exact MIME strings are accepted, each by exactly one
      format: classification and `MimeOf` are inverse on supported formats. */
  lemma ClassifyExact(mime: string)
    ensures Classify(mime) != Unsupported <==> mime == GzipMime || mime == ZipMime
    ensures Classify(mime) != Unsupported ==> MimeOf(Classify(mime)) == mime
    ensures forall f: Format :: f != Unsupported ==> Classify(MimeOf(f)) == f
  {
  }

  /** What `_createTmpZipFile` appends to the scratch name: the default arm
      appends nothing. */
  function Extension(f: Format): string
  {
    match f
    case Gzip => ".gz"
    case Zip => ".zip"
    case Unsupported => ""
  }

  /** `'backup_' . Str::random(10)`, then the format's extension. */
  function ScratchName(suffix: string, f: Format): (name: string)
    requires |suffix| == SuffixLength
    ensures |name| == |ScratchPrefix| + SuffixLength + |Extension(f)|
    ensures ScratchPrefix <= name
  {
    ScratchPrefix + suffix + Extension(f)
  }

  /** Reads a scratch name back into its random suffix and format. */
  function ParseScratchName(name: string): Option<(string, Format)>
  {
    var head := |ScratchPrefix| + SuffixLength;
    if |name| < head || name[..|ScratchPrefix|] != ScratchPrefix then None
    else
      var ext := name[head..];
      var suffix := name[|ScratchPrefix|..head];
      if ext == Extension(Gzip) then Some((suffix, Gzip))
      else if ext == Extension(Zip) then Some((suffix, Zip))
      else if ext == Extension(Unsupported) then Some((suffix, Unsupported))
      else None
  }

  /** The scratch name determines both the random suffix and the detected
      format, so distinct suffixes or formats never share a scratch file. */
  lemma ScratchNameRoundTrip(suffix: string, f: Format)
    requires |suffix| == SuffixLength
    ensures ParseScratchName(ScratchName(suffix, f)) == Some((suffix, f))
  {
  }

  lemma ScratchNameInjective(s1: string, f1: Format, s2: string, f2: Format)
    requires |s1| == SuffixLength && |s2| == SuffixLength
    requires ScratchName(s1, f1) == ScratchName(s2, f2)
    ensures s1 == s2 && f1 == f2
  {
    ScratchNameRoundTrip(s1, f1);
    ScratchNameRoundTrip(s2, f2);
  }
}

=== FILE: pipeline.dfy ===
/** The two copies of the restore routine: `Importer::handle`, which throws
    on every error, and the console command `ImportDb::handle`, which only
    prints an error for an empty listing or an unknown MIME type and keeps
    going. Both run download, scratch-file creation, import and cleanup
    strictly in that order with no try/finally, so an exception skips every
    later stage, cleanup included. */
module Pipeline {
  import opened Base
  import opened FileStore
  import opened Selection
  import opened Format
  import opened Workspace
  import opened Extract
  import opened Restore

  /** The S3 disk: the names `files()` lists under the configured prefix, in
      its order, and per-name `lastModified`, `mimeType` and `get`. */
  datatype Remote = Remote(
    files: seq<string>,
    lastModified: string -> int,
    mimeType: string -> string,
    get: string -> Bytes)

  /** zlib and libzip applied to the downloaded bytes. */
  datatype Codecs = Codecs(gunzip: Bytes -> GzOpen, unzip: Bytes -> ZipArchive)

  /** Everything a run depends on besides the local disk and the random
      suffix: the remote disk, the decompressors, the `zip_full_path`
      setting and whether the database accepts a payload. */
  datatype Env = Env(remote: Remote, codecs: Codecs, zipFullPath: Option<string>, execute: Bytes -> bool)

  /** The stages of `handle` that returned normally, in order. */
  datatype Stage = Downloaded | TmpFileCreated | Imported | CleanedUp | Finished

  /** Errors `ImportDb` prints instead of throwing. */
  datatype Notice = NoBackupsFound | ForbiddenFileType

  datatype Status = Done | Failed(error: Error)

  /** What a run leaves behind: the local disk, the stages completed, the
      remote name downloaded, the payload submitted to the database, the
      printed errors and the outcome. */
  datatype Report = Report(
    store: Store,
    stages: seq<Stage>,
    downloaded: Option<string>,
    submitted: Option<Bytes>,
    notices: seq<Notice>,
    status: Status)

  const ImporterStages: seq<Stage> := [Downloaded, TmpFileCreated, Imported, CleanedUp]

  /** `ImportDb::handle` prints "Finished" after cleanup returns. */
  const ImportDbStages: seq<Stage> := ImporterStages + [Finished]

  datatype Download = Download(name: string, mime: string, content: Bytes)

  /** The listing paired with each name's `lastModified`. */
  function Timestamps(r: Remote): (l: Listing)
    ensures |l| == |r.files|
    ensures forall i :: 0 <= i < |l| ==> l[i] == (r.files[i], r.lastModified(r.files[i]))
  {
    seq(|r.files|, i requires 0 <= i < |r.files| => (r.files[i], r.lastModified(r.files[i])))
  }

  /** Selection, then `mimeType` and `get` on the selected name. */
  ghost function FetchLatest(r: Remote): Result<Download>
  {
    match Select(Timestamps(r))
    case Err(e) => Err(e)
    case Ok(n) => Ok(Download(n, r.mimeType(n), r.get(n)))
  }

  /** Paths a run may create, change or delete: the scratch file under any
      of its three possible names, `Dest`, and everything inside `Dest`. */
  predicate InWorkspace(q: Path, suffix: string)
    requires |suffix| == SuffixLength
  {
    || q == Dest
    || Under(q, Dest)
    || q == ScratchPath(suffix, Gzip)
    || q == ScratchPath(suffix, Zip)
    || q == ScratchPath(suffix, Unsupported)
  }

  /** Nothing outside the workspace changes between two disks. */
  ghost predicate OutsideUnchanged(s: Store, t: Store, suffix: string)
    requires |suffix| == SuffixLength
  {
    forall q :: !InWorkspace(q, suffix) ==> (q in t <==> q in s) && (q in s ==> t[q] == s[q])
  }

  /** The format-specific arm of `_createTmpZipFile` for a supported type. */
  function ExtractFor(s: Store, suffix: string, d: Download, c: Codecs): (r: Step<()>)
    requires |suffix| == SuffixLength
    requires Classify(d.mime) != Unsupported
    ensures OutsideUnchanged(s, r.store, suffix)
    ensures IsFile(r.store, ScratchPath(suffix, Classify(d.mime)))
  {
    var f := Classify(d.mime);
    var scratch := ScratchPath(suffix, f);
    ScratchApartFromDest(suffix, f);
    if f == Gzip then ExtractGzip(s, scratch, d.content, c.gunzip(d.content))
    else ExtractZip(s, scratch, d.content, c.unzip(d.content))
  }

  /** `_importBackup` then `_cleanUp`, after the scratch file stage returned. */
  function ImportAndCleanUp(s: Store, suffix: string, f: Format, env: Env, name: string, notices: seq<Notice>): (r: Report)
    requires |suffix| == SuffixLength
    ensures r.stages <= ImporterStages && |r.stages| >= 2
    ensures r.status == Done <==> r.stages == ImporterStages
    ensures r.submitted.Some? <==> |r.stages| >= 3
    ensures r.downloaded == Some(name) && r.notices == notices
    ensures OutsideUnchanged(s, r.store, suffix)
  {
    var scratch := ScratchPath(suffix, f);
    ScratchApartFromDest(suffix, f);
    match ImportBackup(s, env.zipFullPath, env.execute)
    case Halt(s2, e) => Report(s2, ImporterStages[..2], Some(name), None, notices, Failed(e))
    case Next(s2, sql) =>
      match CleanUp(s2, scratch)
      case Halt(s3, e) => Report(s3, ImporterStages[..3], Some(name), Some(sql), notices, Failed(e))
      case Next(s3, _) => Report(s3, ImporterStages, Some(name), Some(sql), notices, Done)
  }

  /** `Importer::handle`. */
  ghost function ImporterHandle(env: Env, suffix: string, s: Store): (r: Report)
    requires |suffix| == SuffixLength
    ensures r.stages <= ImporterStages
    ensures r.status == Done <==> r.stages == ImporterStages
    ensures |env.remote.files| == 0 ==> r == Report(s, [], None, None, [], Failed(NoBackups))
    ensures r.downloaded.Some? <==> |r.stages| >= 1
    ensures r.submitted.Some? <==> |r.stages| >= 3
    ensures r.notices == []
    ensures OutsideUnchanged(s, r.store, suffix)
  {
    if |env.remote.files| == 0 then Report(s, [], None, None, [], Failed(NoBackups))
    else match FetchLatest(env.remote)
      case Err(e) => Report(s, [], None, None, [], Failed(e))
      case Ok(d) =>
        if Classify(d.mime) == Unsupported then
          Report(s, ImporterStages[..1], Some(d.name), None, [], Failed(ForbiddenType))
        else match ExtractFor(s, suffix, d, env.codecs)
          case Halt(s1, e) => Report(s1, ImporterStages[..1], Some(d.name), None, [], Failed(e))
          case Next(s1, _) => ImportAndCleanUp(s1, suffix, Classify(d.mime), env, d.name, [])
  }

  /** "Finished" is printed only when every earlier stage returned. */
  function WithFinished(r: Report): (r': Report)
    requires r.status == Done <==> r.stages == ImporterStages
    requires r.stages <= ImporterStages
    ensures r'.stages <= ImportDbStages
    ensures r'.status == Done <==> r'.stages == ImportDbStages
    ensures r'.status == r.status && r'.store == r.store && r'.submitted == r.submitted
  {
    if r.status == Done then r.(stages := ImportDbStages) else r
  }

  /** `ImportDb::handle` from `_createTmpZipFile` on: an unknown MIME type
      is printed and the run goes on to the import with the scratch name
      left without an extension and nothing written. */
  function ImportDbAfterDownload(env: Env, suffix: string, s: Store, d: Download, notices: seq<Notice>): (r: Report)
    requires |suffix| == SuffixLength
    ensures r.stages <= ImportDbStages && |r.stages| >= 1
    ensures r.status == Done <==> r.stages == ImportDbStages
    ensures r.status != Failed(ForbiddenType) && r.status != Failed(NoBackups)
    ensures r.submitted.Some? <==> |r.stages| >= 3
    ensures r.downloaded == Some(d.name)
    ensures OutsideUnchanged(s, r.store, suffix)
  {
    var f := Classify(d.mime);
    if f == Unsupported then
      WithFinished(ImportAndCleanUp(s, suffix, f, env, d.name, notices + [ForbiddenFileType]))
    else match ExtractFor(s, suffix, d, env.codecs)
      case Halt(s1, e) => Report(s1, ImporterStages[..1], Some(d.name), None, notices, Failed(e))
      case Next(s1, _) => WithFinished(ImportAndCleanUp(s1, suffix, f, env, d.name, notices))
  }

  /** `ImportDb::handle`. An empty listing is printed, and selection then
      finds no element to take. */
  ghost function ImportDbHandle(env: Env, suffix: string, s: Store): (r: Report)
    requires |suffix| == SuffixLength
    ensures r.stages <= ImportDbStages
    ensures r.status == Done <==> r.stages == ImportDbStages
    ensures |env.remote.files| == 0 ==> r == Report(s, [], None, None, [NoBackupsFound], Failed(NoElement))
    ensures r.status != Failed(ForbiddenType) && r.status != Failed(NoBackups)
    ensures r.submitted.Some? <==> |r.stages| >= 3
    ensures OutsideUnchanged(s, r.store, suffix)
  {
    var notices := if |env.remote.files| == 0 then [NoBackupsFound] else [];
    SelectSpec(Timestamps(env.remote));
    match FetchLatest(env.remote)
    case Err(e) => Report(s, [], None, None, notices, Failed(e))
    case Ok(d) => ImportDbAfterDownload(env, suffix, s, d, notices)
  }
}

=== FILE: properties.dfy ===
/** Properties of the two restore routines that relate several stages. */
module RestoreProperties {
  import opened Base
  import opened FileStore
  import opened Selection
  import opened Format
  import opened Workspace
  import opened Extract
  import opened Restore
  import opened Pipeline

  /** A download always comes from a non-empty listing. */
  lemma FetchedMeansListed(r: Remote, d: Download)
    requires FetchLatest(r) == Ok(d)
    ensures |r.files| > 0
    ensures exists i :: IsLatestIndex(Timestamps(r), i) && d.name == r.files[i]
    ensures d.mime == r.mimeType(d.name) && d.content == r.get(d.name)
  {
    SelectSpec(Timestamps(r));
  }

  /** For a non-empty listing, `Importer` downloads the name listed last
      among those with the newest timestamp. */
  lemma ImporterDownloadsLatest(env: Env, suffix: string, s: Store)
    requires |suffix| == SuffixLength
    requires |env.remote.files| > 0
    ensures exists i :: IsLatestIndex(Timestamps(env.remote), i)
                     && ImporterHandle(env, suffix, s).downloaded == Some(env.remote.files[i])
  {
    SelectSpec(Timestamps(env.remote));
  }

  /** An unknown MIME type stops `Importer` right after the download,
      before anything is written to the local disk. */
  lemma ImporterRejectsUnsupported(env: Env, suffix: string, s: Store, d: Download)
    requires |suffix| == SuffixLength
    requires FetchLatest(env.remote) == Ok(d)
    requires Classify(d.mime) == Unsupported
    ensures ImporterHandle(env, suffix, s) == Report(s, [Downloaded], Some(d.name), None, [], Failed(ForbiddenType))
  {
  }

  /** `Importer` has no try/finally: a failure after the scratch file was
      written leaves it on disk, and cleanup itself never fails because the
      scratch file it unlinks was always written. */
  lemma ImporterFailureSkipsCleanup(env: Env, suffix: string, s: Store, d: Download)
    requires |suffix| == SuffixLength
    requires FetchLatest(env.remote) == Ok(d)
    ensures ImporterHandle(env, suffix, s).status != Failed(UnlinkFailed)
    ensures ImporterHandle(env, suffix, s).status.Failed? ==> CleanedUp !in ImporterHandle(env, suffix, s).stages
    ensures ImporterHandle(env, suffix, s).status.Failed? && |ImporterHandle(env, suffix, s).stages| >= 1
            && Classify(d.mime) != Unsupported
            ==> IsFile(ImporterHandle(env, suffix, s).store, ScratchPath(suffix, Classify(d.mime)))
  {
    FetchedMeansListed(env.remote, d);
    var f := Classify(d.mime);
    if f != Unsupported {
      var x := ExtractFor(s, suffix, d, env.codecs);
      if x.Next? {
        ImportKeepsWrittenScratch(x.store, suffix, f, env, d.name);
      }
    }
  }

  /** Once the scratch file is on disk, the import either fails and leaves
      it there, or is followed by a cleanup that succeeds. */
  lemma ImportKeepsWrittenScratch(s: Store, suffix: string, f: Format, env: Env, name: string)
    requires |suffix| == SuffixLength
    requires IsFile(s, ScratchPath(suffix, f))
    ensures ImportAndCleanUp(s, suffix, f, env, name, []).status != Failed(UnlinkFailed)
    ensures ImportAndCleanUp(s, suffix, f, env, name, []).status.Failed? ==>
              && CleanedUp !in ImportAndCleanUp(s, suffix, f, env, name, []).stages
              && IsFile(ImportAndCleanUp(s, suffix, f, env, name, []).store, ScratchPath(suffix, f))
  {
    ScratchApartFromDest(suffix, f);
  }

  /** A successful `Importer` run leaves neither the download nor the
      extraction output on disk. */
  lemma ImporterDoneLeavesNoScratch(env: Env, suffix: string, s: Store, d: Download)
    requires |suffix| == SuffixLength
    requires FetchLatest(env.remote) == Ok(d)
    requires forall q :: q in s && Under(q, Dest) ==> IsDir(s, Dest)
    ensures ImporterHandle(env, suffix, s).status == Done ==>
              && ScratchPath(suffix, Classify(d.mime)) !in ImporterHandle(env, suffix, s).store
              && Dest !in ImporterHandle(env, suffix, s).store
              && forall q :: q in ImporterHandle(env, suffix, s).store ==> !Under(q, Dest)
  {
    FetchedMeansListed(env.remote, d);
    var f := Classify(d.mime);
    if f != Unsupported {
      var x := ExtractFor(s, suffix, d, env.codecs);
      if x.Next? {
        ExtractionKeepsDestTree(s, suffix, d, env.codecs);
        DoneCleansWorkspace(x.store, suffix, f, env, d.name);
      }
    }
  }

  /** An extraction that returns keeps "nothing inside `tmp/backup.sql`
      unless it is a directory": gzip output is written only where no
      directory stands, and zip output makes it a directory. */
  lemma ExtractionKeepsDestTree(s: Store, suffix: string, d: Download, c: Codecs)
    requires |suffix| == SuffixLength
    requires Classify(d.mime) != Unsupported
    requires forall q :: q in s && Under(q, Dest) ==> IsDir(s, Dest)
    ensures ExtractFor(s, suffix, d, c).Next? ==>
              forall q :: q in ExtractFor(s, suffix, d, c).store && Under(q, Dest) ==> IsDir(ExtractFor(s, suffix, d, c).store, Dest)
  {
    var f := Classify(d.mime);
    var scratch := ScratchPath(suffix, f);
    ScratchApartFromDest(suffix, f);
    if f == Gzip {
      var r := ExtractGzip(s, scratch, d.content, c.gunzip(d.content));
      assert ExtractFor(s, suffix, d, c) == r;
    } else {
      var r := ExtractZip(s, scratch, d.content, c.unzip(d.content));
      assert ExtractFor(s, suffix, d, c) == r;
    }
  }

  /** A run that completes from a disk holding the scratch file, where
      nothing lies inside `tmp/backup.sql` unless it is a directory, removes
      the scratch file and the whole of `tmp/backup.sql`. */
  lemma DoneCleansWorkspace(s: Store, suffix: string, f: Format, env: Env, name: string)
    requires |suffix| == SuffixLength
    requires forall q :: q in s && Under(q, Dest) ==> IsDir(s, Dest)
    ensures ImportAndCleanUp(s, suffix, f, env, name, []).status == Done ==>
              && ScratchPath(suffix, f) !in ImportAndCleanUp(s, suffix, f, env, name, []).store
              && Dest !in ImportAndCleanUp(s, suffix, f, env, name, []).store
              && forall q :: q in ImportAndCleanUp(s, suffix, f, env, name, []).store ==> !Under(q, Dest)
  {
    ScratchApartFromDest(suffix, f);
  }

  /** A gzip backup whose stream opens is decompressed in full, the whole
      SQL text is submitted, and the run completes. */
  lemma GzipRestoreSubmitsStream(env: Env, suffix: string, s: Store, d: Download, sql: Bytes)
    requires |suffix| == SuffixLength
    requires FetchLatest(env.remote) == Ok(d)
    requires d.mime == GzipMime
    requires env.codecs.gunzip(d.content) == GzOpened(sql)
    requires !IsDir(s, Dest)
    requires !Truthy(env.zipFullPath)
    requires env.execute(sql)
    ensures ImporterHandle(env, suffix, s).status == Done
    ensures ImporterHandle(env, suffix, s).submitted == Some(sql)
  {
  }

  /** A gzip backup whose stream does not open stops the run with the
      download left on disk. */
  lemma GzipOpenFailureStops(env: Env, suffix: string, s: Store, d: Download)
    requires |suffix| == SuffixLength
    requires FetchLatest(env.remote) == Ok(d)
    requires d.mime == GzipMime
    requires env.codecs.gunzip(d.content) == GzOpenFailed
    ensures ImporterHandle(env, suffix, s)
         == Report(Put(s, ScratchPath(suffix, Gzip), d.content), [Downloaded], Some(d.name), None, [], Failed(GzipOpenFailed))
  {
    FetchedMeansListed(env.remote, d);
    ScratchApartFromDest(suffix, Gzip);
    assert ImporterStages[..1] == [Downloaded];
  }

  /** A gzip backup whose stream opens, over a `tmp/backup.sql` directory
      an earlier zip run left behind, stops at `fopen` with the download
      left on disk and the old extraction untouched. */
  lemma GzipOverDirectoryStops(env: Env, suffix: string, s: Store, d: Download, sql: Bytes)
    requires |suffix| == SuffixLength
    requires FetchLatest(env.remote) == Ok(d)
    requires d.mime == GzipMime
    requires env.codecs.gunzip(d.content) == GzOpened(sql)
    requires IsDir(s, Dest)
    ensures ImporterHandle(env, suffix, s)
         == Report(Put(s, ScratchPath(suffix, Gzip), d.content), [Downloaded], Some(d.name), None, [], Failed(DestIsDirectory))
  {
    FetchedMeansListed(env.remote, d);
    ScratchApartFromDest(suffix, Gzip);
    assert ImporterStages[..1] == [Downloaded];
  }

  /** A zip backup over a `tmp/backup.sql` file that an earlier gzip run
      left behind stops inside `extractTo`, with only the download written. */
  lemma ZipOverFileStops(env: Env, suffix: string, s: Store, d: Download, entries: map<string, Bytes>)
    requires |suffix| == SuffixLength
    requires FetchLatest(env.remote) == Ok(d)
    requires d.mime == ZipMime
    requires env.codecs.unzip(d.content) == ZipArchive(OpenTrue, entries) && |entries| > 0
    requires IsFile(s, Dest)
    ensures ImporterHandle(env, suffix, s)
         == Report(Put(s, ScratchPath(suffix, Zip), d.content), [Downloaded], Some(d.name), None, [], Failed(DestIsFile))
  {
    FetchedMeansListed(env.remote, d);
    var scratch := ScratchPath(suffix, Zip);
    ScratchApartFromDest(suffix, Zip);
    var x := ExtractZip(s, scratch, d.content, env.codecs.unzip(d.content));
    assert ExtractFor(s, suffix, d, env.codecs) == x;
    assert ImporterStages[..1] == [Downloaded];
  }

  /** An archive without entries over such a file extracts nothing, so
      without `zip_full_path` the run imports the stale gzip output. */
  lemma EmptyZipOverFileImportsStale(env: Env, suffix: string, s: Store, d: Download)
    requires |suffix| == SuffixLength
    requires FetchLatest(env.remote) == Ok(d)
    requires d.mime == ZipMime
    requires env.codecs.unzip(d.content) == ZipArchive(OpenTrue, map[])
    requires IsFile(s, Dest) && !Truthy(env.zipFullPath)
    requires env.execute(s[Dest].content)
    ensures ImporterHandle(env, suffix, s).status == Done
    ensures ImporterHandle(env, suffix, s).submitted == Some(s[Dest].content)
  {
    FetchedMeansListed(env.remote, d);
    var scratch := ScratchPath(suffix, Zip);
    ScratchApartFromDest(suffix, Zip);
    PayloadPathChoice(env.zipFullPath);
    var x := ExtractZip(s, scratch, d.content, env.codecs.unzip(d.content));
    assert ExtractFor(s, suffix, d, env.codecs) == x;
  }

  /** A zip backup with a truthy `zip_full_path` naming one of its entries
      submits exactly that entry. */
  lemma ZipRestoreSubmitsEntry(env: Env, suffix: string, s: Store, d: Download, entries: map<string, Bytes>)
    requires |suffix| == SuffixLength
    requires FetchLatest(env.remote) == Ok(d)
    requires d.mime == ZipMime
    requires !IsFile(s, Dest)
    requires env.codecs.unzip(d.content) == ZipArchive(OpenTrue, entries)
    requires Truthy(env.zipFullPath) && env.zipFullPath.value in entries
    requires env.execute(entries[env.zipFullPath.value])
    ensures ImporterHandle(env, suffix, s).status == Done
    ensures ImporterHandle(env, suffix, s).submitted == Some(entries[env.zipFullPath.value])
  {
  }

  /** Without a sub-path a zip backup cannot be imported: the payload path
      is the extraction directory itself. */
  lemma ZipWithoutSubPathFails(env: Env, suffix: string, s: Store, d: Download, entries: map<string, Bytes>)
    requires |suffix| == SuffixLength
    requires FetchLatest(env.remote) == Ok(d)
    requires d.mime == ZipMime
    requires !IsFile(s, Dest)
    requires env.codecs.unzip(d.content) == ZipArchive(OpenTrue, entries)
    requires !Truthy(env.zipFullPath)
    ensures ImporterHandle(env, suffix, s).status == Failed(PayloadIsDirectory)
    ensures IsFile(ImporterHandle(env, suffix, s).store, ScratchPath(suffix, Zip))
  {
    FetchedMeansListed(env.remote, d);
    var scratch := ScratchPath(suffix, Zip);
    ScratchApartFromDest(suffix, Zip);
    var x := ExtractZip(s, scratch, d.content, env.codecs.unzip(d.content));
    PayloadPathChoice(env.zipFullPath);
    ImportOfDirectoryFails(x.store, suffix, Zip, env, d.name, []);
    assert ExtractFor(s, suffix, d, env.codecs) == x;
  }

  /** An archive that does not open stops `Importer` right after the
      download, with the download left at its scratch path and nothing
      extracted, imported or cleaned up. */
  lemma ZipOpenFailureStops(env: Env, suffix: string, s: Store, d: Download)
    requires |suffix| == SuffixLength
    requires FetchLatest(env.remote) == Ok(d)
    requires d.mime == ZipMime
    requires !env.codecs.unzip(d.content).status.OpenTrue?
    ensures ImporterHandle(env, suffix, s)
            == Report(Put(s, ScratchPath(suffix, Zip), d.content), [Downloaded], Some(d.name), None, [], Failed(ZipNotOpened))
  {
    FetchedMeansListed(env.remote, d);
    var scratch := ScratchPath(suffix, Zip);
    ScratchApartFromDest(suffix, Zip);
    var x := ExtractZip(s, scratch, d.content, env.codecs.unzip(d.content));
    assert ExtractFor(s, suffix, d, env.codecs) == x;
    assert ImporterStages[..1] == [Downloaded];
  }

  /** A directory at the payload path stops the import, before cleanup. */
  lemma ImportOfDirectoryFails(s: Store, suffix: string, f: Format, env: Env, name: string, notices: seq<Notice>)
    requires |suffix| == SuffixLength
    requires IsDir(s, PayloadPath(env.zipFullPath))
    ensures ImportAndCleanUp(s, suffix, f, env, name, notices).status == Failed(PayloadIsDirectory)
    ensures ImportAndCleanUp(s, suffix, f, env, name, notices).store == s
  {
  }

  /** A sub-path that names a directory of the archive (the parent of a
      nested entry, not itself an entry) is extracted as a directory, so
      the import stops there. */
  lemma ZipSubPathNamingDirectoryFails(env: Env, suffix: string, s: Store, d: Download,
                                       entries: map<string, Bytes>, rest: string)
    requires |suffix| == SuffixLength
    requires FetchLatest(env.remote) == Ok(d)
    requires d.mime == ZipMime
    requires !IsFile(s, Dest)
    requires env.codecs.unzip(d.content) == ZipArchive(OpenTrue, entries)
    requires Truthy(env.zipFullPath)
    requires env.zipFullPath.value !in entries && env.zipFullPath.value + "/" + rest in entries
    ensures ImporterHandle(env, suffix, s).status == Failed(PayloadIsDirectory)
  {
    FetchedMeansListed(env.remote, d);
    var scratch := ScratchPath(suffix, Zip);
    ScratchApartFromDest(suffix, Zip);
    var x := ExtractZip(s, scratch, d.content, env.codecs.unzip(d.content));
    ExtractedParentIsDirectory(s, scratch, d.content, env.codecs.unzip(d.content), env.zipFullPath.value, rest);
    assert PayloadPath(env.zipFullPath) == EntryPath(env.zipFullPath.value);
    ImportOfDirectoryFails(x.store, suffix, Zip, env, d.name, []);
    assert ExtractFor(s, suffix, d, env.codecs) == x;
  }

  /** On a supported backup the two copies behave alike: same disk, same
      payload, same outcome, and `ImportDb` adds "Finished" after a
      completed cleanup. */
  lemma VariantsAgreeOnSupportedTypes(env: Env, suffix: string, s: Store, d: Download)
    requires |suffix| == SuffixLength
    requires FetchLatest(env.remote) == Ok(d)
    requires Classify(d.mime) != Unsupported
    ensures ImportDbHandle(env, suffix, s) == WithFinished(ImporterHandle(env, suffix, s))
  {
  }

  /** `ImportDb` with an unknown MIME type prints the error, writes nothing,
      and imports whatever an earlier run left at the payload path. The
      scratch name it then unlinks has no extension and was never written,
      so a run that got past the import stops at cleanup, after `Dest` is
      gone. */
  lemma ImportDbUnsupportedContinues(env: Env, suffix: string, s: Store, d: Download)
    requires |suffix| == SuffixLength
    requires FetchLatest(env.remote) == Ok(d)
    requires Classify(d.mime) == Unsupported
    ensures ImportDbHandle(env, suffix, s).notices == [ForbiddenFileType]
    ensures |ImportDbHandle(env, suffix, s).stages| >= 2
    ensures ImportDbHandle(env, suffix, s).submitted.Some?
        <==> IsFile(s, PayloadPath(env.zipFullPath)) && env.execute(s[PayloadPath(env.zipFullPath)].content)
    ensures ImportDbHandle(env, suffix, s).submitted.Some?
        ==> ImportDbHandle(env, suffix, s).submitted == Some(s[PayloadPath(env.zipFullPath)].content)
    ensures ImportDbHandle(env, suffix, s).submitted.Some? && !IsFile(s, ScratchPath(suffix, Unsupported))
        ==> ImportDbHandle(env, suffix, s).status == Failed(UnlinkFailed)
            && Dest !in ImportDbHandle(env, suffix, s).store
    ensures forall q :: q in ImportDbHandle(env, suffix, s).store ==> q in s && ImportDbHandle(env, suffix, s).store[q] == s[q]
  {
  }
}

=== FILE: restore.dfy ===
/** `_importBackup` and `_cleanUp`. The database is a parameter: `execute`
    says whether `DB::unprepared` accepts a payload or throws. */
module Restore {
  import opened Base
  import opened FileStore
  import opened Workspace

  /** `_importBackup`: read the payload at the configured path and submit it
      as one batch. The store is never changed; a missing or unreadable
      payload, or a rejected batch, stops the run. */
  function ImportBackup(s: Store, zipFullPath: Option<string>, execute: Bytes -> bool): (r: Step<Bytes>)
    ensures r.store == s
    ensures r.Next? <==> IsFile(s, PayloadPath(zipFullPath)) && execute(s[PayloadPath(zipFullPath)].content)
    ensures r.Next? ==> s[PayloadPath(zipFullPath)] == File(r.value)
    ensures r.Halt? && !IsFile(s, PayloadPath(zipFullPath)) ==> r.error in {PayloadMissing, PayloadIsDirectory}
    ensures r.Halt? && IsFile(s, PayloadPath(zipFullPath)) ==> r.error == QueryFailed
  {
    match Read(s, PayloadPath(zipFullPath))
    case Err(e) => Halt(s, e)
    case Ok(sql) => if execute(sql) then Next(s, sql) else Halt(s, QueryFailed)
  }

  /** `_cleanUp`: remove `Dest` (recursively when it is a directory, as a
      file otherwise), then unlink the downloaded archive. Only the unlink
      can fail; `File::delete` ignores a missing path. */
  function CleanUp(s: Store, scratch: Path): (r: Step<()>)
    requires scratch != Dest && !Under(scratch, Dest)
    ensures Dest !in r.store
    ensures IsDir(s, Dest) ==> forall q :: Under(q, Dest) ==> q !in r.store
    ensures r.Next? <==> IsFile(s, scratch)
    ensures r.Next? ==> scratch !in r.store
    ensures r.Halt? ==> r.error == UnlinkFailed && (scratch in r.store <==> scratch in s)
    ensures forall q :: q in r.store ==> q in s && r.store[q] == s[q]
    ensures forall q :: q in s && q != Dest && q != scratch && !(IsDir(s, Dest) && Under(q, Dest)) ==> q in r.store
  {
    var s1 := if IsDir(s, Dest) then DeleteDirectory(s, Dest) else DeleteFile(s, Dest);
    match Unlink(s1, scratch)
    case Ok(s2) => Next(s2, ())
    case Err(e) => Halt(s1, e)
  }

  /** Cleanup after a completed extraction leaves no scratch state: neither
      the archive, nor `Dest`, nor anything inside it, and nothing else on
      disk changes. */
  lemma CleanUpAfterExtraction(s: Store, scratch: Path)
    requires scratch != Dest && !Under(scratch, Dest)
    requires IsFile(s, scratch)
    requires forall q :: Under(q, Dest) && q in s ==> IsDir(s, Dest)
    ensures CleanUp(s, scratch).Next?
    ensures forall q :: q in CleanUp(s, scratch).store <==>
              q in s && q != scratch && q != Dest && !Under(q, Dest)
  {
  }
}

=== FILE: selection.dfy ===
/** Latest-backup selection, as `_getLatestBackupFileContent`, `_getLatest`
    and `_sortByTimestamps` do it: the listing is folded into a PHP array
    keyed by timestamp (a later name with the same timestamp overwrites an
    earlier one), the array is sorted by key in descending order, and its
    first value is taken. */
module Selection {
  import opened Base

  /** (remote file name, last-modified timestamp) in listing order. */
  type Listing = seq<(string, int)>

  /** `$withTimestamps[$lastModified] = $filename` for every listed file, in order. */
  function Collect(l: Listing): map<int, string>
  {
    if |l| == 0 then map[] else Collect(l[..|l|-1])[l[|l|-1].1 := l[|l|-1].0]
  }

  /** No entry after position `i` has the same timestamp as entry `i`. */
  ghost predicate IsLastWith(l: Listing, i: int) {
    0 <= i < |l| && forall j :: i < j < |l| ==> l[j].1 != l[i].1
  }

  /** Reference definition of the entry the source picks: the timestamp is
      maximal, and no later entry shares it. */
  ghost predicate IsLatestIndex(l: Listing, i: int) {
    && IsLastWith(l, i)
    && forall j :: 0 <= j < |l| ==> l[j].1 <= l[i].1
  }

  /** The keys of the folded array are exactly the listed timestamps. */
  lemma {:induction false} CollectKeys(l: Listing)
    ensures forall t :: t in Collect(l) <==> exists i :: 0 <= i < |l| && l[i].1 == t
  {
    if |l| > 0 {
      var p := l[..|l|-1];
      var n, ts := l[|l|-1].0, l[|l|-1].1;
      CollectKeys(p);
      assert Collect(l) == Collect(p)[ts := n];
      forall t
        ensures t in Collect(l) <==> exists i :: 0 <= i < |l| && l[i].1 == t
      {
        if t in Collect(l) && t != ts {
          var i :| 0 <= i < |p| && p[i].1 == t;
          assert l[i] == p[i];
        }
        if t !in Collect(l) {
          forall i | 0 <= i < |l| ensures l[i].1 != t {
            if i < |p| { assert l[i] == p[i]; }
          }
        }
      }
    }
  }

  /** Each key of the folded array holds the name listed last with that
      timestamp. */
  lemma {:induction false} CollectValues(l: Listing)
    ensures forall t :: t in Collect(l) ==> exists i :: IsLastWith(l, i) && l[i] == (Collect(l)[t], t)
  {
    if |l| > 0 {
      var p := l[..|l|-1];
      var n, ts := l[|l|-1].0, l[|l|-1].1;
      CollectValues(p);
      assert Collect(l) == Collect(p)[ts := n];
      forall t | t in Collect(l)
        ensures exists i :: IsLastWith(l, i) && l[i] == (Collect(l)[t], t)
      {
        if t == ts {
          assert IsLastWith(l, |l|-1) && l[|l|-1] == (Collect(l)[t], t);
        } else {
          var i :| IsLastWith(p, i) && p[i] == (Collect(p)[t], t);
          assert l[i] == p[i];
          assert IsLastWith(l, i);
        }
      }
    }
  }

  /** The keys of the folded array are exactly the listed timestamps, and
      each key holds the name listed last with that timestamp. */
  lemma {:induction false} CollectSpec(l: Listing)
    ensures forall t :: t in Collect(l) <==> exists i :: 0 <= i < |l| && l[i].1 == t
    ensures forall t :: t in Collect(l) ==> exists i :: IsLastWith(l, i) && l[i] == (Collect(l)[t], t)
  {
    CollectKeys(l);
    CollectValues(l);
  }

  lemma NonEmptyHasElement(s: set<int>)
    requires s != {}
    ensures exists y :: y in s
  {
    if forall y :: y !in s {
      assert false;
    }
  }

  /** The largest element of a non-empty finite set of timestamps. */
  ghost function MaxKey(s: set<int>): (k: int)
    requires s != {}
    ensures k in s
    ensures forall y :: y in s ==> y <= k
  {
    NonEmptyHasElement(s);
    var x :| x in s;
    var rest := s - {x};
    assert forall y :: y in s ==> y == x || y in rest;
    if rest == {} then
      x
    else
      var k' := MaxKey(rest);
      assert forall y :: y in rest ==> y <= k';
      if x < k' then k' else x
  }

  /** The keys in the order `krsort` leaves them: every key once, strictly
      descending. */
  ghost function KeysDescending(s: set<int>): (ks: seq<int>)
    ensures forall i :: 0 <= i < |ks| ==> ks[i] in s
    ensures forall k :: k in s ==> k in ks
    ensures forall i, j :: 0 <= i < j < |ks| ==> ks[i] > ks[j]
  {
    if s == {} then []
    else
      var k := MaxKey(s);
      var s' := s - {k};
      var rest := KeysDescending(s');
      assert forall i :: 0 <= i < |rest| ==> rest[i] in s' && rest[i] < k;
      assert forall x :: x in s ==> x == k || x in s';
      var ks := [k] + rest;
      assert forall i :: 0 < i < |ks| ==> ks[i] == rest[i - 1];
      ks
  }

  /** `krsort` followed by `array_values`. */
  ghost function SortByTimestamps(m: map<int, string>): (r: seq<string>)
    ensures m == map[] <==> r == []
  {
    var ks := KeysDescending(m.Keys);
    seq(|ks|, i requires 0 <= i < |ks| => m[ks[i]])
  }

  /** `$sortedByTimestamp[0]`: the value under the largest key, or no
      element at all when the array is empty. */
  ghost function GetLatest(m: map<int, string>): (r: Result<string>)
    ensures m == map[] <==> r == Err(NoElement)
    ensures m != map[] ==> r == Ok(m[MaxKey(m.Keys)])
  {
    var sorted := SortByTimestamps(m);
    if |sorted| == 0 then Err(NoElement) else Ok(sorted[0])
  }

  /** The name the source downloads for a listing. */
  ghost function Select(l: Listing): Result<string>
  {
    GetLatest(Collect(l))
  }

  /** Whenever entry `i` is the latest in the reference sense, its name is
      the one selected. */
  lemma SelectIsLatestIndex(l: Listing, i: int)
    requires IsLatestIndex(l, i)
    ensures Select(l) == Ok(l[i].0)
  {
    CollectSpec(l);
    var m := Collect(l);
    var t := l[i].1;
    assert t in m;
    var k := MaxKey(m.Keys);
    var j :| 0 <= j < |l| && l[j].1 == k;
    assert k == t;
    var w :| IsLastWith(l, w) && l[w] == (m[t], t);
    assert w == i;
  }

  /** Every non-empty listing has exactly one latest entry. */
  lemma {:induction false} LatestIndexExists(l: Listing)
    requires |l| > 0
    ensures exists i :: IsLatestIndex(l, i)
  {
    if |l| == 1 {
      assert IsLatestIndex(l, 0);
    } else {
      var p := l[..|l|-1];
      LatestIndexExists(p);
      var i :| IsLatestIndex(p, i);
      var last := |l| - 1;
      if l[last].1 >= p[i].1 {
        forall j | 0 <= j < |l| ensures l[j].1 <= l[last].1 {
          if j < last { assert l[j] == p[j]; }
        }
        assert IsLatestIndex(l, last);
      } else {
        forall j | 0 <= j < |l| ensures l[j].1 <= l[i].1 {
          if j < last { assert l[j] == p[j]; }
        }
        forall j | i < j < |l| ensures l[j].1 != l[i].1 {
          if j < last { assert l[j] == p[j]; }
        }
        assert IsLatestIndex(l, i);
      }
    }
  }

  lemma LatestIndexUnique(l: Listing, i: int, j: int)
    requires IsLatestIndex(l, i) && IsLatestIndex(l, j)
    ensures i == j
  {
    assert l[i].1 <= l[j].1 && l[j].1 <= l[i].1;
  }

  /** Selection over the whole input space: an empty listing has no element
      to pick; otherwise the pick is a listed name whose timestamp is at
      least every listed timestamp, and no later entry shares that
      timestamp (last-listed wins a tie). */
  lemma SelectSpec(l: Listing)
    ensures |l| == 0 <==> Select(l) == Err(NoElement)
    ensures |l| > 0 ==> exists i :: IsLatestIndex(l, i) && Select(l) == Ok(l[i].0)
  {
    if |l| == 0 {
      assert Collect(l) == map[];
    } else {
      LatestIndexExists(l);
      var i :| IsLatestIndex(l, i);
      SelectIsLatestIndex(l, i);
    }
  }

  /** Two backups with the same timestamp: the one listed second is taken. */
  lemma TieGoesToLastListed()
    ensures Select([("nightly-a.sql.gz", 200), ("nightly-b.sql.gz", 200), ("old.sql.gz", 100)])
         == Ok("nightly-b.sql.gz")
  {
    var l := [("nightly-a.sql.gz", 200), ("nightly-b.sql.gz", 200), ("old.sql.gz", 100)];
    assert IsLatestIndex(l, 1);
    SelectIsLatestIndex(l, 1);
  }
}

=== FILE: workspace.dfy ===
/** Fixed locations on the local disk. Paths are relative to the storage
    root the `local` disk writes to, so `storage_path('app/tmp/')` is the
    directory `tmp/` here. */
module Workspace {
  import opened Base
  import opened FileStore
  import opened Format

  const TmpDir: string := "tmp/"

  /** `TMP_UNZIPPED_FILENAME`. */
  const UnzippedName: string := "backup.sql"

  /** Where both extractors put their output: a file for gzip, a directory
      for zip. */
  const Dest: Path := TmpDir + UnzippedName

  /** The downloaded archive, `tmp/` plus its scratch name. */
  function ScratchPath(suffix: string, f: Format): Path
    requires |suffix| == SuffixLength
  {
    TmpDir + ScratchName(suffix, f)
  }

  /** The downloaded archive never collides with the extraction output or
      anything inside it. */
  lemma ScratchApartFromDest(suffix: string, f: Format)
    requires |suffix| == SuffixLength
    ensures ScratchPath(suffix, f) != Dest
    ensures !Under(ScratchPath(suffix, f), Dest)
  {
    var p := ScratchPath(suffix, f);
    assert p[10] == '_';
    assert Dest[10] == '.';
    assert (Dest + "/")[10] == '.';
  }

  /** PHP truthiness of a configuration value that is a string or null:
      null, "" and "0" are false. */
  predicate Truthy(v: Option<string>) {
    v.Some? && v.value != "" && v.value != "0"
  }

  /** `_importBackup`'s choice: the sub-path inside the extraction output
      when `zip_full_path` is truthy, the output itself otherwise. */
  function PayloadPath(zipFullPath: Option<string>): (p: Path)
    ensures Truthy(zipFullPath) ==> Under(p, Dest) && p[|Dest| + 1..] == zipFullPath.value
    ensures !Truthy(zipFullPath) ==> p == Dest
  {
    if Truthy(zipFullPath) then Dest + "/" + zipFullPath.value else Dest
  }

  /** The sub-path is recovered from the payload path exactly when it is
      used; "0" and "" count as absent. */
  lemma PayloadPathChoice(zipFullPath: Option<string>)
    ensures PayloadPath(zipFullPath) == Dest <==> !Truthy(zipFullPath)
    ensures PayloadPath(Some("0")) == Dest && PayloadPath(Some("")) == Dest
  {
  }
}
